=== FILE: README.md ===
# Ledger engine model

A Dafny model of the ledger core shared by three small JavaScript scripts:

- `LR1/blockchain.js`: a proof-of-work chain whose blocks carry a `type`.
  Standard blocks after genesis are mined for `difficulty` leading zeros.
  Alternative blocks are mined until the character at index 2 of the hash
  is `'3'`. The genesis block is standard but never mined. The validity
  pass starts at index 1 and re-checks the difficulty of standard blocks
  there.
- `Lab01/blockchain.js`: a proof-of-work chain without `type`. Every appended
  block is mined for leading zeros; the genesis block is not mined. The
  validity pass checks only hashes and links.
- `LR1/pos_blockchain.js`: a proof-of-stake chain. Each appended block
  records a validator picked at random, weighted by stake. The genesis block
  records the fixed validator "System" with stake 0, which is not drawn from
  the validator list. There is no nonce.

Modules and files:

| file | module | models |
|---|---|---|
| `results.dfy` | `Results` | `undefined` results and thrown TypeErrors, as `Option`/`Result` values |
| `decimal.dfy` | `Decimal` | JavaScript's number-to-text conversion inside string concatenation |
| `strings.dfy` | `Strings` | `"0".repeat`, `substring(0, d)`, `startsWith` |
| `hashing.dfy` | `Hashing` | the hash function type, hex digests, payload text |
| `ledger.dfy` | `Ledger` | the latest-block lookup the three chains share (a helper) |
| `mining.dfy` | `Mining` | the nonce search shared by `mineBlock` and `mineBlockAlternative` |
| `pow_chain.dfy` | `PowChain` | `LR1/blockchain.js` |
| `lab01_chain.dfy` | `Lab01Chain` | `Lab01/blockchain.js` |
| `stake.dfy` | `Stake` | `pickValidator` |
| `pos_chain.dfy` | `PosChain` | the block and chain of `LR1/pos_blockchain.js` |

How the model treats the scripts' outside dependencies:

- SHA-256 is a parameter `H: Hasher` of every hashing operation. A `Hasher`
  is any total function from strings to 64-character lower-case hex strings.
- No function into 64-character digests is injective on all strings. So the
  tamper-detection lemmas assume only that `H` does not collide on the two
  preimages they compare (`Hashing.CollisionFreeOn`).
- `Date.now()` is a parameter `now`.
- `Math.random()` is a parameter `u`. The lemmas that need it assume
  `0 <= u < 1`.
- `JSON.stringify(data)` is an opaque, already-serialised string (`Json`).
- Blocks and chains are immutable values. The source's in-place mutations
  (mining, `push`, tampering) return new values.
- The stored `hash` field is a plain string, so a tampered block can hold
  anything there.

The mining loop has no bound in the source. Here it takes a `fuel`
budget: the largest number of nonce increments it may make. Running out
gives `MiningTimeout`, and the contract then states that no nonce in the
window meets the target. On success, the contract states that the nonce
returned is the first one at or after the start that meets the target.

Facts about the code that the model keeps:

- The proof-of-stake block has no nonce.
- The proof-of-stake preimage adds `index` and `timestamp` as numbers
  before turning the sum into text. `PosChain.IndexTimestampShiftUndetected`
  proves a consequence: moving value between those two fields goes unnoticed.
- Proof-of-stake `addBlock` numbers the new block `last.index + 1`. The
  proof-of-work `addBlock` uses the chain length. The two agree on chains
  indexed by position, and every `AddBlock` preserves `IndexedByPosition`.
- Only `LR1/blockchain.js` re-checks the difficulty during validation.
  `Lab01/blockchain.js` does not (`Lab01Chain.UnminedBlockAccepted`).
- With an empty validator list, `pickValidator` returns `undefined` and
  `addBlock` then throws. The model returns `None` and `Err(NoValidator)`.
  With all stakes zero, the draw is 0 and the first validator wins
  (`Stake.AllZeroStakesPickFirst`).
- The default arguments are kept as Dafny default parameter values:
  difficulty 3 for the proof-of-work constructors, `useAlternative = false`
  for `addBlock` in `LR1/blockchain.js`, and previous hash `""` and kind
  "standard" for the block constructors.

## Model

| member | source | states |
|---|---|---|
| Decimal.ParseNatToString | LR1/blockchain.js:17 | reading back the decimal text of a number (as it appears in the hashed string) gives the number |
| Decimal.NatToStringInjective | LR1/blockchain.js:17 | distinct indices or nonces render as distinct text in the hashed string |
| Strings.SubstringTestIsLeadingZeros | LR1/blockchain.js:23 | the loop test `substring(0, d) === "0".repeat(d)` holds iff the first d characters exist and are '0' |
| Strings.StartsWithTestIsLeadingZeros | LR1/blockchain.js:82 | the validity test `startsWith("0".repeat(d))` holds iff the first d characters exist and are '0', the same condition the miner stops on |
| Mining.Search | LR1/blockchain.js:21-39 | the shared search loop returns the first nonce at or after the start whose hash meets the target, keeping the stored hash when it already does; a timeout means no nonce in the budget meets it |
| Mining.LeadingZerosTarget | Lab01/blockchain.js:24 | the leading-zeros target is exactly "d leading '0' characters", and difficulty 0 accepts any hash |
| Mining.DifficultyAbove64Unreachable | LR1/blockchain.js:23 | no 64-character hex digest meets a difficulty above 64, so mining cannot stop there |
| PowChain.PreimageLayout | LR1/blockchain.js:14-19 | `calculateHash` hashes, in this order, the decimal text of the index, the timestamp text, the payload JSON, the previous hash and the decimal text of the nonce; each part reads back from its position; `type` and the stored hash do not enter it. The tamper lemmas DataTamperDetected, NonceTamperDetected and RelabelAlternativeUndetected rely on it |
| PowChain.NewBlock | LR1/blockchain.js:4-12 | a new block has nonce 0 and a stored hash equal to the hash of its fields |
| PowChain.Mine | LR1/blockchain.js:21-39 | block-level search: a block whose stored hash meets the target is returned unchanged; otherwise only nonce and hash change, every nonce between the old one and the result fails, and the result is sealed at the first later nonce that meets the target, whatever hash was stored before |
| PowChain.MineBlock | LR1/blockchain.js:21-29 | a block whose stored hash already has d leading zeros (always so for d = 0) is returned unchanged; otherwise after `mineBlock(d)` the hash has d leading zeros and equals `calculateHash()` of the fields, and every nonce between the old one and the result fails, whatever hash was stored before; only nonce and hash change |
| PowChain.MineBlockAlternative | LR1/blockchain.js:31-39 | a block whose stored hash already has '3' at index 2 is returned unchanged; otherwise after `mineBlockAlternative()` the hash has the '3' and equals `calculateHash()`, and every nonce between the old one and the result lacks it, whatever hash was stored before; only nonce and hash change; no difficulty involved |
| PowChain.NewChain | LR1/blockchain.js:43-50 | a fresh chain is one sealed, unmined genesis block at index 0 with previous hash "0", and it is valid; difficulty defaults to 3 |
| PowChain.PushPreservesValid | LR1/blockchain.js:75-85 | pushing a sealed block that links to the tail and has the leading zeros when standard keeps a valid chain valid |
| PowChain.AddBlock | LR1/blockchain.js:56-73 | appends exactly one block at index = old length, linked to the old last hash, kind set by the flag, sealed: the candidate at its first nonce that meets its miner's target; mining fails only if no nonce up to the budget meets it, and never for a standard block at difficulty 0 (nonce stays 0); earlier blocks unchanged; validity and position indexing preserved; empty chain is an error |
| PowChain.IsChainValid | LR1/blockchain.js:75-85 | answers true iff every block from index 1 recomputes its hash, links to its predecessor, and has the difficulty's leading zeros when standard |
| PowChain.PreimageTamperDetected | LR1/blockchain.js:80 | a block after genesis replaced by one whose preimage differs but whose stored hash is kept makes the chain invalid, given no collision on the two preimages |
| PowChain.DataTamperDetected | LR1/blockchain.js:94-97 | overwriting the data of a block after genesis invalidates a valid chain, given no collision on the two preimages |
| PowChain.NonceTamperDetected | LR1/blockchain.js:14-19 | overwriting the nonce of a block after genesis invalidates a valid chain, given no collision on the two preimages |
| PowChain.RelabelAlternativeUndetected | LR1/blockchain.js:14-19 | `type` is not hashed, so relabelling any block as alternative keeps a valid chain valid |
| PowChain.GenesisNotInspected | LR1/blockchain.js:75-85 | any genesis with the same stored hash gives the same verdict: genesis fields are never checked |
| Lab01Chain.PreimageLayout | Lab01/blockchain.js:15-20 | `calculateHash` hashes, in this order, the decimal text of the index, the timestamp text, the payload JSON, the previous hash and the decimal text of the nonce; each part reads back from its position; the stored hash does not enter it. The tamper lemma DataTamperDetected relies on it |
| Lab01Chain.NewBlock | Lab01/blockchain.js:5-12 | a new block has nonce 0 and a stored hash equal to the hash of its fields |
| Lab01Chain.MineBlock | Lab01/blockchain.js:23-29 | a block whose stored hash already has d leading zeros (always so for d = 0) is returned unchanged; otherwise after `mineBlock(d)` the hash has d leading zeros and equals `calculateHash()`, and every nonce between the old one and the result fails, whatever hash was stored before; only nonce and hash change |
| Lab01Chain.NewChain | Lab01/blockchain.js:34-42 | a fresh chain is one sealed, unmined genesis block at index 0 with previous hash "0", and it is valid; difficulty defaults to 3 |
| Lab01Chain.PushPreservesValid | Lab01/blockchain.js:62-74 | pushing any sealed block that links to the tail keeps a valid chain valid |
| Lab01Chain.AddBlock | Lab01/blockchain.js:50-59 | appends one block at index = old length linked to the old last hash: the candidate at its first nonce with the leading zeros; mining fails only if no nonce up to the budget has them, and never at difficulty 0 (nonce stays 0); earlier blocks unchanged; validity and position indexing preserved; empty chain is an error |
| Lab01Chain.IsChainValid | Lab01/blockchain.js:62-74 | answers true iff every block from index 1 recomputes its hash and links to its predecessor |
| Lab01Chain.UnminedBlockAccepted | Lab01/blockchain.js:62-74 | a sealed, linked block without the leading zeros still passes validation |
| Lab01Chain.DataTamperDetected | Lab01/blockchain.js:88-90 | overwriting the data of a block after genesis invalidates a valid chain, given no collision on the two preimages |
| Lab01Chain.GenesisTamperUndetected | Lab01/blockchain.js:63 | the loop starts at 1, so changing any genesis field but its hash leaves the verdict unchanged |
| Stake.StakeBeforeMonotone | LR1/pos_blockchain.js:14 | with no negative stake, cumulative stake never decreases along the list |
| Stake.FallbackUnreachable | LR1/pos_blockchain.js:14-23 | with non-negative stakes and 0 <= u < 1, the total covers u·total, so the fallback return is never reached |
| Stake.PickValidator | LR1/pos_blockchain.js:13-24 | returns a member of a non-empty list: the first validator whose cumulative stake reaches u·total, or the last when none does; the first one always, given non-negative stakes and 0 <= u < 1; nothing for an empty list |
| Stake.SelectionInterval | LR1/pos_blockchain.js:14-21 | the draws selecting validator k are exactly (S_(k-1), S_k] (up to S_0 for k = 0), an interval whose width is k's stake |
| Stake.ZeroStakesSumToZero | LR1/pos_blockchain.js:14 | with all stakes zero every cumulative stake, and so the total, is zero |
| Stake.AllZeroStakesPickFirst | LR1/pos_blockchain.js:14-20 | with all stakes zero the draw is 0 and exactly the first validator is selected |
| Stake.ZeroStakeNeverPicked | LR1/pos_blockchain.js:17-21 | a zero-stake validator after the first is never selected, given non-negative stakes |
| Stake.ExampleIntervals | LR1/pos_blockchain.js:98-120 | for stakes 5, 10, 1 the selecting draws are [0,5], (5,15], (15,16] of 16 |
| PosChain.PreimageLayout | LR1/pos_blockchain.js:37-46 | `createHash` hashes, in this order, the decimal text of the numeric sum index + timestamp, the payload JSON, the previous hash and the validator name; there is no nonce; each part reads back from its position. The tamper lemmas DataTamperDetected, IndexTamperDetected and IndexTimestampShiftUndetected rely on it |
| PosChain.NewBlock | LR1/pos_blockchain.js:27-47 | a new block records the validator's name and stores the hash of its fields |
| PosChain.NewChain | LR1/pos_blockchain.js:51-61 | a fresh chain is one sealed genesis block at index 0 with previous hash "0" produced by "System", and it is valid |
| PosChain.PushPreservesValid | LR1/pos_blockchain.js:85-94 | pushing a sealed block that links to the tail keeps a valid chain valid |
| PosChain.AddBlock | LR1/pos_blockchain.js:67-83 | appends one sealed block numbered last index + 1, linked to the last hash and naming a validator from the set, the stake-weighted pick under non-negative stakes; earlier blocks unchanged; validity and position indexing preserved; empty chain, then empty validator list, are errors |
| PosChain.CheckValidity | LR1/pos_blockchain.js:85-94 | answers true iff every block from index 1 recomputes its hash and links to its predecessor |
| PosChain.PreimageTamperDetected | LR1/pos_blockchain.js:90 | a block after genesis replaced by one whose preimage differs but whose stored hash is kept makes the chain invalid, given no collision |
| PosChain.DataTamperDetected | LR1/pos_blockchain.js:37-46 | overwriting the data of a block after genesis invalidates a valid chain, given no collision on the two preimages |
| PosChain.IndexTamperDetected | LR1/pos_blockchain.js:37-46 | overwriting only the index of a block after genesis invalidates a valid chain, given no collision on the two preimages |
| PosChain.IndexTimestampShiftUndetected | LR1/pos_blockchain.js:38-40 | index and timestamp are summed before hashing, so moving k from the timestamp to the index keeps a valid chain valid for every hash function |

## Left out

- `LR1/etherscan_block_info.js` is not part of this model. It is a read-only
  reporting client: network calls, async flow, console output and date
  formatting.
- SHA-256 itself. It is the parameter `H`, and collision-freedom is only a
  hypothesis on the two preimages a lemma compares.
- `Math.random`, `Date.now`, `console.time`/`console.log`. Randomness and
  time are parameters. Logging has no effect on the ledger, so it is dropped.
- `JSON.stringify`. Payloads are held as their JSON text. The genesis
  payloads are the JSON text of the source's literal strings.
- JavaScript number details. The model uses unbounded integers and decimal
  text: no precision loss above 2^53 and no exponent notation above 10^21.
  Stakes and the draw are exact reals, so the floating-point boundary cases
  that reach the fallback are not modelled.
- Negative or fractional difficulty. Difficulty is a natural number; the
  source would throw a RangeError in `"0".repeat` for a negative one.
- A `type` other than "standard" or "alternative". The kind is a
  two-valued datatype, so such a tampered value cannot be expressed.
- The demo code at the bottom of each script: the example chains, the
  "Hacked!" edit and the 50-draw tally. The tamper lemmas and
  `Stake.ExampleIntervals` state what the demos illustrate. The demos cannot
  be replayed, because the hash is a parameter.
- The `Validator` class constructor. It only stores its two arguments.
- Mining.Search: termination is not modelled. The source loops until a hash
  meets the target, which may never happen; the model stops after `fuel`
  increments with `MiningTimeout`. So "first accepted nonce" is stated only
  within that budget.
- PowChain.Mine: carries the Mining.Search budget restriction.
- PowChain.MineBlock: carries the Mining.Search budget restriction.
- PowChain.MineBlockAlternative: carries the Mining.Search budget restriction.
- Lab01Chain.MineBlock: carries the Mining.Search budget restriction.
- PowChain.AddBlock: returns `MiningFailed` only when no nonce from 0 to
  `fuel` meets the target, and then leaves the chain unchanged. The source
  has no budget; it would keep mining.
- Lab01Chain.AddBlock: returns `MiningFailed` only when no nonce from 0 to
  `fuel` has the leading zeros, and then leaves the chain unchanged, as for
  PowChain.AddBlock.

=== FILE: decimal.dfy ===
/** Decimal rendering of non-negative integers, the way JavaScript turns a
    safe integer into a string when it is concatenated with one. */
module Decimal {

  predicate IsDigit(c: char) {
    '0' <= c <= '9'
  }

  predicate AllDigits(s: string) {
    forall i :: 0 <= i < |s| ==> IsDigit(s[i])
  }

  function DigitChar(d: nat): (c: char)
    requires d < 10
    ensures IsDigit(c)
  {
    ('0' as int + d) as char
  }

  function DigitValue(c: char): nat
    requires IsDigit(c)
  {
    c as int - '0' as int
  }

  /** `String(n)` for a non-negative integer: its decimal digits, most
      significant first, without leading zeros. */
  function NatToString(n: nat): (s: string)
    ensures 0 < |s|
    ensures AllDigits(s)
  {
    if n < 10 then [DigitChar(n)] else NatToString(n / 10) + [DigitChar(n % 10)]
  }

  /** Reads a string of decimal digits back as a number; the inverse of
      NatToString. */
  function ParseDecimal(s: string): nat
    requires AllDigits(s)
  {
    if |s| == 0 then 0 else 10 * ParseDecimal(s[..|s| - 1]) + DigitValue(s[|s| - 1])
  }

  /** Rendering a number and reading it back gives the number. */
  lemma {:induction false} ParseNatToString(n: nat)
    ensures ParseDecimal(NatToString(n)) == n
  {
    var s := NatToString(n);
    if n < 10 {
      assert s[..|s| - 1] == [];
    } else {
      ParseNatToString(n / 10);
      assert s[..|s| - 1] == NatToString(n / 10);
    }
  }

  /** Distinct numbers have distinct decimal renderings. */
  lemma NatToStringInjective(m: nat, n: nat)
    requires m != n
    ensures NatToString(m) != NatToString(n)
  {
    ParseNatToString(m);
    ParseNatToString(n);
  }
}

=== FILE: hashing.dfy ===
/** The block hasher's building blocks: SHA-256 is not modelled, it is a
    parameter `H` of every operation that hashes, constrained only to return
    a 64-character lower-case hexadecimal digest. */
module Hashing {

  predicate IsHexChar(c: char) {
    '0' <= c <= '9' || 'a' <= c <= 'f'
  }

  /** What `digest("hex")` of a SHA-256 hash looks like. */
  predicate IsHexDigest(s: string) {
    |s| == 64 && forall i :: 0 <= i < |s| ==> IsHexChar(s[i])
  }

  type HexDigest = s: string | IsHexDigest(s)
    witness seq(64, _ => '0')

  /** A deterministic hash of a preimage string. */
  type Hasher = string -> HexDigest

  /** A block payload after `JSON.stringify`: the model never looks inside it. */
  type Json = string

  /** `H` does not collide on the two preimages `s` and `t`. No function into
      64-character digests is injective on all strings, so the tamper
      detection lemmas assume this only for the two preimages they compare. */
  predicate CollisionFreeOn(H: Hasher, s: string, t: string) {
    s != t ==> H(s) != H(t)
  }
}

=== FILE: lab01_chain.dfy ===
/** The first proof-of-work ledger: blocks have no kind, every appended block
    is mined for `difficulty` leading zeros, and the validity pass checks
    hashes and links only, never the difficulty. */
module Lab01Chain {
  import opened Results
  import opened Ledger
  import opened Decimal
  import opened Strings
  import opened Hashing
  import opened Mining

  /** A block. `timestamp` is the string `Date.now().toString()`, `data`
      the payload's JSON text. */
  datatype Block = Block(
    index: nat,
    timestamp: string,
    data: Json,
    previousHash: string,
    nonce: nat,
    hash: string)

  /** The hashed string `index + timestamp + JSON.stringify(data) +
      previousHash + nonce`, every part concatenated as text. */
  function Preimage(b: Block): string {
    NatToString(b.index) + b.timestamp + b.data + b.previousHash + NatToString(b.nonce)
  }

  /** `calculateHash()`. */
  function CalculateHash(H: Hasher, b: Block): HexDigest {
    H(Preimage(b))
  }

  /** The hashed string holds, in this order, the decimal text of the index,
      the timestamp, the payload text, the previous hash and the decimal text
      of the nonce, each readable back from its position. The stored hash is
      not part of it. */
  lemma PreimageLayout(H: Hasher, b: Block, hash: string)
    ensures var p := Preimage(b);
      var i := |NatToString(b.index)|;
      var t := i + |b.timestamp|;
      var d := t + |b.data|;
      var h := d + |b.previousHash|;
      && |p| == h + |NatToString(b.nonce)|
      && p[..i] == NatToString(b.index) && ParseDecimal(p[..i]) == b.index
      && p[i..t] == b.timestamp
      && p[t..d] == b.data
      && p[d..h] == b.previousHash
      && p[h..] == NatToString(b.nonce) && ParseDecimal(p[h..]) == b.nonce
    ensures CalculateHash(H, b.(hash := hash)) == CalculateHash(H, b)
  {
    var p := Preimage(b);
    var a, n := NatToString(b.index), NatToString(b.nonce);
    var i := |a|;
    var t := i + |b.timestamp|;
    var d := t + |b.data|;
    var h := d + |b.previousHash|;
    assert p == a + b.timestamp + b.data + b.previousHash + n;
    assert p[..i] == a;
    assert p[i..t] == b.timestamp;
    assert p[t..d] == b.data;
    assert p[d..h] == b.previousHash;
    assert p[h..] == n;
    ParseNatToString(b.index);
    ParseNatToString(b.nonce);
    assert Preimage(b.(hash := hash)) == p;
  }

  /** The stored hash is the hash of the stored fields. */
  predicate Sealed(H: Hasher, b: Block) {
    b.hash == CalculateHash(H, b)
  }

  /** The block constructor: nonce 0 and the hash of the given fields. The
      previous hash defaults to `""`. */
  function NewBlock(H: Hasher, index: nat, timestamp: string, data: Json, previousHash: string := ""): (b: Block)
    ensures Sealed(H, b) && b.nonce == 0
    ensures b.index == index && b.timestamp == timestamp && b.data == data && b.previousHash == previousHash
  {
    var unsealed := Block(index, timestamp, data, previousHash, 0, "");
    unsealed.(hash := CalculateHash(H, unsealed))
  }

  /** The hash the block would have with nonce `n`. */
  function HashWithNonce(H: Hasher, b: Block, n: nat): HexDigest {
    CalculateHash(H, b.(nonce := n))
  }

  /** `mineBlock(difficulty)`: increments the nonce until the hash has
      `difficulty` leading zeros, at most `fuel` times. Only the nonce and the
      hash change. A block whose stored hash already has the zeros (always so
      for difficulty 0) comes back unchanged; otherwise each increment
      re-hashes the block, so the result is sealed at the first later nonce
      with the zeros, whatever hash the block stored before. */
  method MineBlock(H: Hasher, b: Block, difficulty: nat, fuel: nat) returns (r: Result<Block, MiningError>)
    ensures r.Ok? ==> HasLeadingZeros(r.value.hash, difficulty)
    ensures r.Ok? ==> r.value == b.(nonce := r.value.nonce, hash := r.value.hash)
    ensures r.Ok? ==> b.nonce <= r.value.nonce <= b.nonce + fuel
    ensures r.Ok? && (Sealed(H, b) || r.value.nonce != b.nonce) ==> Sealed(H, r.value)
    ensures r.Ok? ==>
              forall m :: b.nonce < m < r.value.nonce ==> !HasLeadingZeros(HashWithNonce(H, b, m), difficulty)
    ensures r.Ok? && Sealed(H, b) ==>
              forall m :: b.nonce <= m < r.value.nonce ==> !HasLeadingZeros(HashWithNonce(H, b, m), difficulty)
    ensures difficulty == 0 ==> r == Ok(b)
    ensures HasLeadingZeros(b.hash, difficulty) ==> r == Ok(b)
    ensures r.Err? ==> forall m :: b.nonce < m <= b.nonce + fuel ==> !HasLeadingZeros(HashWithNonce(H, b, m), difficulty)
  {
    var t := LeadingZeros(difficulty);
    var hashAt: nat -> string := (n: nat) => HashWithNonce(H, b, n);
    forall m: nat
      ensures Accepts(t, hashAt(m)) <==> HasLeadingZeros(HashWithNonce(H, b, m), difficulty)
    {
      LeadingZerosTarget(difficulty, HashWithNonce(H, b, m));
    }
    LeadingZerosTarget(difficulty, b.hash);
    var found := Search(hashAt, t, Seal(b.nonce, b.hash), fuel);
    match found
    case Err(e) =>
      r := Err(e);
    case Ok(s) =>
      r := Ok(b.(nonce := s.nonce, hash := s.hash));
      LeadingZerosTarget(difficulty, s.hash);
      assert b.(nonce := b.nonce) == b;
  }

  /** The ledger: its blocks, genesis first, and the mining difficulty. */
  datatype Chain = Chain(blocks: seq<Block>, difficulty: nat)

  /** The genesis payload, `JSON.stringify("Genesis Block")`. */
  const GenesisData: Json := "\"Genesis Block\""

  /** The checks `isChainValid` makes of block `i` and its predecessor. */
  predicate LinkOk(H: Hasher, c: Chain, i: nat)
    requires 1 <= i < |c.blocks|
  {
    && c.blocks[i].hash == CalculateHash(H, c.blocks[i])
    && c.blocks[i].previousHash == c.blocks[i - 1].hash
  }

  /** Every block after genesis passes the checks. */
  predicate Valid(H: Hasher, c: Chain) {
    forall i :: 1 <= i < |c.blocks| ==> LinkOk(H, c, i)
  }

  /** Block `i` sits at index `i`. */
  predicate IndexedByPosition(c: Chain) {
    forall i :: 0 <= i < |c.blocks| ==> c.blocks[i].index == i
  }

  /** The constructor: one sealed, unmined genesis block (index 0, previous
      hash `"0"`), which makes a valid chain. The difficulty defaults to 3. */
  function NewChain(H: Hasher, now: nat, difficulty: nat := 3): (c: Chain)
    ensures |c.blocks| == 1 && c.difficulty == difficulty
    ensures c.blocks[0].index == 0 && c.blocks[0].previousHash == "0"
    ensures c.blocks[0].nonce == 0 && Sealed(H, c.blocks[0])
    ensures Valid(H, c) && IndexedByPosition(c)
  {
    Chain([NewBlock(H, 0, NatToString(now), GenesisData, "0")], difficulty)
  }

  /** The block `addBlock` builds before mining it: index `|chain|`, the
      timestamp as text, linked to the latest block, nonce 0. */
  function Candidate(H: Hasher, c: Chain, now: nat, data: Json): Block
    requires 0 < |c.blocks|
  {
    NewBlock(H, |c.blocks|, NatToString(now), data, c.blocks[|c.blocks| - 1].hash)
  }

  /** Why `addBlock` failed: no latest block, or the search budget ran out. */
  datatype ChainError = EmptyChain | MiningFailed

  /** Pushing any sealed block linked to the tail keeps a valid chain valid;
      whether it was mined does not matter to the validity pass. */
  lemma PushPreservesValid(H: Hasher, c: Chain, b: Block)
    requires Valid(H, c) && 0 < |c.blocks|
    requires Sealed(H, b) && b.previousHash == c.blocks[|c.blocks| - 1].hash
    ensures Valid(H, c.(blocks := c.blocks + [b]))
  {
    var c' := c.(blocks := c.blocks + [b]);
    forall i | 1 <= i < |c'.blocks|
      ensures LinkOk(H, c', i)
    {
      if i < |c.blocks| {
        assert LinkOk(H, c, i);
      }
    }
  }

  /** `addBlock(data)`: builds a block at index `|chain|` linked to the
      latest block, mines it, and pushes it. The pushed block is the
      candidate at its first nonce with the leading zeros; mining fails only
      when no nonce up to `fuel` has them. Earlier blocks are untouched and
      validity is kept. */
  method AddBlock(H: Hasher, c: Chain, now: nat, data: Json, fuel: nat) returns (r: Result<Chain, ChainError>)
    ensures r == Err(EmptyChain) <==> |c.blocks| == 0
    ensures r.Ok? ==> |r.value.blocks| == |c.blocks| + 1 && r.value.difficulty == c.difficulty
    ensures r.Ok? ==> r.value.blocks[..|c.blocks|] == c.blocks
    ensures r.Ok? ==> var b := r.value.blocks[|c.blocks|];
              && b.index == |c.blocks|
              && b.timestamp == NatToString(now)
              && b.data == data
              && b.previousHash == c.blocks[|c.blocks| - 1].hash
              && Sealed(H, b)
              && HasLeadingZeros(b.hash, c.difficulty)
    ensures r.Ok? ==>
              var candidate := Candidate(H, c, now, data);
              var b := r.value.blocks[|c.blocks|];
              && b == candidate.(nonce := b.nonce, hash := b.hash)
              && b.nonce <= fuel
              && forall m :: 0 <= m < b.nonce ==> !HasLeadingZeros(HashWithNonce(H, candidate, m), c.difficulty)
    ensures r == Err(MiningFailed) ==>
              && 0 < |c.blocks|
              && var candidate := Candidate(H, c, now, data);
                 forall m :: 0 <= m <= fuel ==> !HasLeadingZeros(HashWithNonce(H, candidate, m), c.difficulty)
    ensures 0 < |c.blocks| && c.difficulty == 0 ==> r.Ok? && r.value.blocks[|c.blocks|].nonce == 0
    ensures r.Ok? && Valid(H, c) ==> Valid(H, r.value)
    ensures r.Ok? && IndexedByPosition(c) ==> IndexedByPosition(r.value)
  {
    var latest := Latest(c.blocks);
    if latest.None? {
      return Err(EmptyChain);
    }
    var candidate := NewBlock(H, |c.blocks|, NatToString(now), data, latest.value.hash);
    assert candidate == Candidate(H, c, now, data);
    assert HashWithNonce(H, candidate, 0) == candidate.hash by {
      assert candidate.(nonce := 0) == candidate;
    }
    var mined := MineBlock(H, candidate, c.difficulty, fuel);
    if mined.Err? {
      return Err(MiningFailed);
    }
    var b := mined.value;
    r := Ok(c.(blocks := c.blocks + [b]));
    assert r.value.blocks[..|c.blocks|] == c.blocks;
    if Valid(H, c) {
      PushPreservesValid(H, c, b);
    }
  }

  /** `isChainValid()`: walks the chain from index 1 and answers false at the
      first block whose hash does not recompute or whose link does not
      match. */
  method IsChainValid(H: Hasher, c: Chain) returns (ok: bool)
    ensures ok <==> Valid(H, c)
  {
    var i := 1;
    while i < |c.blocks|
      invariant 1 <= i <= |c.blocks| + 1
      invariant forall j :: 1 <= j < i && j < |c.blocks| ==> LinkOk(H, c, j)
    {
      var current := c.blocks[i];
      var previous := c.blocks[i - 1];
      if current.hash != CalculateHash(H, current) {
        assert !LinkOk(H, c, i);
        return false;
      }
      if current.previousHash != previous.hash {
        assert !LinkOk(H, c, i);
        return false;
      }
      i := i + 1;
    }
    return true;
  }

  /** The validity pass has no difficulty check: a valid chain extended by a
      sealed, linked block whose hash lacks the leading zeros is still
      valid. */
  lemma UnminedBlockAccepted(H: Hasher, c: Chain, b: Block)
    requires Valid(H, c) && 0 < |c.blocks| && 0 < c.difficulty
    requires Sealed(H, b) && b.previousHash == c.blocks[|c.blocks| - 1].hash
    requires !HasLeadingZeros(b.hash, c.difficulty)
    ensures Valid(H, c.(blocks := c.blocks + [b]))
  {
    PushPreservesValid(H, c, b);
  }

  /** Overwriting the payload of block `i >= 1` makes a valid chain invalid,
      provided `H` does not collide on the old and new preimages. */
  lemma DataTamperDetected(H: Hasher, c: Chain, i: nat, data: Json)
    requires Valid(H, c) && 1 <= i < |c.blocks|
    requires data != c.blocks[i].data
    requires CollisionFreeOn(H, Preimage(c.blocks[i].(data := data)), Preimage(c.blocks[i]))
    ensures !Valid(H, c.(blocks := c.blocks[i := c.blocks[i].(data := data)]))
  {
    var b := c.blocks[i];
    var b' := b.(data := data);
    var front := NatToString(b.index) + b.timestamp;
    var back := b.previousHash + NatToString(b.nonce);
    InfixDiffers(front, data, b.data, back);
    assert Preimage(b') == front + data + back;
    assert Preimage(b) == front + b.data + back;
    assert LinkOk(H, c, i);
    var c' := c.(blocks := c.blocks[i := b']);
    assert !LinkOk(H, c', i);
  }

  /** The loop starts at 1, so genesis is never inspected beyond its stored
      hash: replacing it by any block with that hash (a different payload,
      timestamp, index or nonce) leaves the verdict unchanged. */
  lemma GenesisTamperUndetected(H: Hasher, c: Chain, g: Block)
    requires 0 < |c.blocks| && g.hash == c.blocks[0].hash
    ensures Valid(H, c.(blocks := c.blocks[0 := g])) <==> Valid(H, c)
  {
    var c' := c.(blocks := c.blocks[0 := g]);
    forall j | 1 <= j < |c.blocks|
      ensures LinkOk(H, c', j) <==> LinkOk(H, c, j)
    {
    }
  }
}

=== FILE: ledger.dfy ===
/** What the three chains have in common: a sequence of blocks, genesis
    first, read from its tail. */
module Ledger {
  import opened Results

  /** `getLatestBlock()` / `getLastBlock()`: the last block, absent
      (`undefined`) only for an empty chain. */
  function Latest<B>(blocks: seq<B>): (r: Option<B>)
    ensures r.None? <==> |blocks| == 0
    ensures r.Some? ==> r.value == blocks[|blocks| - 1]
  {
    if |blocks| == 0 then None else Some(blocks[|blocks| - 1])
  }
}

=== FILE: mining.dfy ===
/** The nonce-search miner shared by both proof-of-work scripts: one search
    loop parametrised by the target the digest must meet. */
module Mining {
  import opened Results
  import opened Strings
  import opened Hashing

  /** The two acceptance targets of the scripts: `mineBlock(difficulty)`
      wants `difficulty` leading zeros, `mineBlockAlternative()` wants the
      character at index 2 to be `'3'`. */
  datatype Target = LeadingZeros(difficulty: nat) | CharAt2Is3

  /** The negation of each miner's loop condition: `hash.substring(0, d) ===
      "0".repeat(d)`, and `hash[2] === "3"` (an absent character is
      `undefined`, which is not `"3"`). */
  predicate Accepts(t: Target, hash: string) {
    match t
    case LeadingZeros(d) => Substring(hash, d) == Zeros(d)
    case CharAt2Is3 => 2 < |hash| && hash[2] == '3'
  }

  /** The search gave up after its budget of nonce increments. */
  datatype MiningError = MiningTimeout

  /** The two fields mining changes: the nonce and the stored hash. */
  datatype Seal = Seal(nonce: nat, hash: string)

  /** Starting from the block's current nonce and stored hash, increments the
      nonce and rehashes with `hashAt` until the hash meets `t`, at most
      `fuel` times. The result is the first accepted nonce at or after the
      start; a timeout means no nonce in the window is accepted. */
  method Search(hashAt: nat -> string, t: Target, start: Seal, fuel: nat)
    returns (r: Result<Seal, MiningError>)
    ensures r.Ok? ==> Accepts(t, r.value.hash)
    ensures r.Ok? ==> start.nonce <= r.value.nonce <= start.nonce + fuel
    ensures r.Ok? && r.value.nonce == start.nonce ==> r.value == start
    ensures r.Ok? && r.value.nonce != start.nonce ==>
              r.value.hash == hashAt(r.value.nonce) && !Accepts(t, start.hash)
    ensures r.Ok? ==> forall m :: start.nonce < m < r.value.nonce ==> !Accepts(t, hashAt(m))
    ensures Accepts(t, start.hash) ==> r == Ok(start)
    ensures r.Err? ==> !Accepts(t, start.hash)
    ensures r.Err? ==> forall m :: start.nonce < m <= start.nonce + fuel ==> !Accepts(t, hashAt(m))
  {
    var nonce := start.nonce;
    var hash := start.hash;
    var tries: nat := 0;
    while !Accepts(t, hash)
      invariant tries <= fuel
      invariant nonce == start.nonce + tries
      invariant tries == 0 ==> hash == start.hash
      invariant tries != 0 ==> hash == hashAt(nonce) && !Accepts(t, start.hash)
      invariant forall m :: start.nonce < m < nonce ==> !Accepts(t, hashAt(m))
      decreases fuel - tries
    {
      if tries == fuel {
        return Err(MiningTimeout);
      }
      nonce := nonce + 1;
      hash := hashAt(nonce);
      tries := tries + 1;
    }
    r := Ok(Seal(nonce, hash));
  }

  /** The leading-zeros target is met exactly by digests whose first `d`
      characters exist and are `'0'`; difficulty 0 accepts every digest. */
  lemma LeadingZerosTarget(d: nat, hash: string)
    ensures Accepts(LeadingZeros(d), hash) <==> HasLeadingZeros(hash, d)
    ensures d == 0 ==> Accepts(LeadingZeros(d), hash)
  {
    SubstringTestIsLeadingZeros(hash, d);
  }

  /** A SHA-256 hex digest has 64 characters, so no digest meets a
      difficulty above 64: the source's mining loop never ends there. */
  lemma DifficultyAbove64Unreachable(d: nat, digest: HexDigest)
    requires 64 < d
    ensures !Accepts(LeadingZeros(d), digest)
  {
    LeadingZerosTarget(d, digest);
  }
}

=== FILE: pos_chain.dfy ===
/** The proof-of-stake ledger: no mining and no nonce; each appended block
    records the name of a validator picked by stake, and the validity pass
    checks hashes and links. */
module PosChain {
  import opened Results
  import opened Ledger
  import opened Decimal
  import opened Strings
  import opened Hashing
  import opened Stake

  /** A block. `timestamp` is the number `Date.now()`, `data` the payload's
      JSON text, `validator` the producer's name. */
  datatype Block = Block(
    index: nat,
    timestamp: nat,
    data: Json,
    previousHash: string,
    validator: string,
    hash: string)

  /** The hashed string `index + timestamp + JSON.stringify(data) +
      previousHash + validator`: `index` and `timestamp` are both numbers,
      so they are added before the sum is turned into text. */
  function Preimage(b: Block): string {
    NatToString(b.index + b.timestamp) + b.data + b.previousHash + b.validator
  }

  /** `createHash()`. */
  function CreateHash(H: Hasher, b: Block): HexDigest {
    H(Preimage(b))
  }

  /** The hashed string holds, in this order, the decimal text of the sum
      index + timestamp, the payload text, the previous hash and the
      validator's name, each readable back from its position. The stored hash
      is not part of it. */
  lemma PreimageLayout(H: Hasher, b: Block, hash: string)
    ensures var p := Preimage(b);
      var s := |NatToString(b.index + b.timestamp)|;
      var d := s + |b.data|;
      var h := d + |b.previousHash|;
      && |p| == h + |b.validator|
      && p[..s] == NatToString(b.index + b.timestamp) && ParseDecimal(p[..s]) == b.index + b.timestamp
      && p[s..d] == b.data
      && p[d..h] == b.previousHash
      && p[h..] == b.validator
    ensures CreateHash(H, b.(hash := hash)) == CreateHash(H, b)
  {
    var p := Preimage(b);
    var a := NatToString(b.index + b.timestamp);
    var s := |a|;
    var d := s + |b.data|;
    var h := d + |b.previousHash|;
    assert p == a + b.data + b.previousHash + b.validator;
    assert p[..s] == a;
    assert p[s..d] == b.data;
    assert p[d..h] == b.previousHash;
    assert p[h..] == b.validator;
    ParseNatToString(b.index + b.timestamp);
    assert Preimage(b.(hash := hash)) == p;
  }

  /** The stored hash is the hash of the stored fields. */
  predicate Sealed(H: Hasher, b: Block) {
    b.hash == CreateHash(H, b)
  }

  /** The block constructor: records the validator's name and seals. */
  function NewBlock(H: Hasher, index: nat, timestamp: nat, data: Json, previousHash: string, v: Validator): (b: Block)
    ensures Sealed(H, b) && b.validator == v.name
    ensures b.index == index && b.timestamp == timestamp && b.data == data && b.previousHash == previousHash
  {
    var unsealed := Block(index, timestamp, data, previousHash, v.name, "");
    unsealed.(hash := CreateHash(H, unsealed))
  }

  /** The ledger: its blocks, genesis first, and the validator set. */
  datatype Chain = Chain(blocks: seq<Block>, validators: seq<Validator>)

  /** The genesis payload, the JSON text of the string "Початковий блок"
      ("initial block"). */
  const GenesisData: Json := "\"Початковий блок\""

  /** The pseudo-validator that produces genesis. */
  const GenesisValidator: Validator := Validator("System", 0.0)

  /** The checks `checkValidity` makes of block `i` and its predecessor. */
  predicate LinkOk(H: Hasher, c: Chain, i: nat)
    requires 1 <= i < |c.blocks|
  {
    && c.blocks[i].hash == CreateHash(H, c.blocks[i])
    && c.blocks[i].previousHash == c.blocks[i - 1].hash
  }

  /** Every block after genesis passes the checks. */
  predicate Valid(H: Hasher, c: Chain) {
    forall i :: 1 <= i < |c.blocks| ==> LinkOk(H, c, i)
  }

  /** Block `i` sits at index `i`. */
  predicate IndexedByPosition(c: Chain) {
    forall i :: 0 <= i < |c.blocks| ==> c.blocks[i].index == i
  }

  /** The constructor: one sealed genesis block (index 0, previous hash
      `"0"`, produced by "System"), which makes a valid chain. */
  function NewChain(H: Hasher, now: nat, validators: seq<Validator>): (c: Chain)
    ensures |c.blocks| == 1 && c.validators == validators
    ensures c.blocks[0].index == 0 && c.blocks[0].previousHash == "0"
    ensures c.blocks[0].validator == "System" && Sealed(H, c.blocks[0])
    ensures Valid(H, c) && IndexedByPosition(c)
  {
    Chain([NewBlock(H, 0, now, GenesisData, "0", GenesisValidator)], validators)
  }

  /** Why `addBlock` failed, each a TypeError in the source: there is no
      last block to read the index of, or the validator list is empty and
      the pick is `undefined`. */
  datatype ChainError = EmptyChain | NoValidator

  /** Pushing a sealed block linked to the tail keeps a valid chain valid. */
  lemma PushPreservesValid(H: Hasher, c: Chain, b: Block)
    requires Valid(H, c) && 0 < |c.blocks|
    requires Sealed(H, b) && b.previousHash == c.blocks[|c.blocks| - 1].hash
    ensures Valid(H, c.(blocks := c.blocks + [b]))
  {
    var c' := c.(blocks := c.blocks + [b]);
    forall i | 1 <= i < |c'.blocks|
      ensures LinkOk(H, c', i)
    {
      if i < |c.blocks| {
        assert LinkOk(H, c, i);
      }
    }
  }

  /** `addBlock(data)` with `Math.random()` replaced by `u`: picks a
      validator by stake, then pushes a block numbered one past the last
      block's index, linked to it and sealed with the validator's name.
      Earlier blocks are untouched and validity is kept. The missing last
      block is noticed before the missing validator, as the arguments to
      the block constructor are evaluated first. */
  method AddBlock(H: Hasher, c: Chain, now: nat, data: Json, u: real) returns (r: Result<Chain, ChainError>)
    ensures r == Err(EmptyChain) <==> |c.blocks| == 0
    ensures r == Err(NoValidator) <==> 0 < |c.blocks| && |c.validators| == 0
    ensures r.Ok? ==> |r.value.blocks| == |c.blocks| + 1 && r.value.validators == c.validators
    ensures r.Ok? ==> r.value.blocks[..|c.blocks|] == c.blocks
    ensures r.Ok? ==> var b := r.value.blocks[|c.blocks|];
              && b.index == c.blocks[|c.blocks| - 1].index + 1
              && b.timestamp == now
              && b.data == data
              && b.previousHash == c.blocks[|c.blocks| - 1].hash
              && Sealed(H, b)
    ensures r.Ok? ==>
              exists k :: && 0 <= k < |c.validators|
                          && r.value.blocks[|c.blocks|].validator == c.validators[k].name
                          && (NonNegativeStakes(c.validators) && 0.0 <= u < 1.0 ==>
                                IsFirstCover(c.validators, u * Total(c.validators), k))
    ensures r.Ok? && Valid(H, c) ==> Valid(H, r.value)
    ensures r.Ok? && IndexedByPosition(c) ==> IndexedByPosition(r.value)
  {
    var pick := PickValidator(c.validators, u);
    var last := Latest(c.blocks);
    if last.None? {
      return Err(EmptyChain);
    }
    if pick.None? {
      return Err(NoValidator);
    }
    var k := pick.value;
    var b := NewBlock(H, last.value.index + 1, now, data, last.value.hash, c.validators[k]);
    r := Ok(c.(blocks := c.blocks + [b]));
    assert r.value.blocks[..|c.blocks|] == c.blocks;
    assert r.value.blocks[|c.blocks|].validator == c.validators[k].name;
    if Valid(H, c) {
      PushPreservesValid(H, c, b);
    }
  }

  /** `checkValidity()`: walks the chain from index 1 and answers false at
      the first block whose hash does not recompute or whose link does not
      match. */
  method CheckValidity(H: Hasher, c: Chain) returns (ok: bool)
    ensures ok <==> Valid(H, c)
  {
    var i := 1;
    while i < |c.blocks|
      invariant 1 <= i <= |c.blocks| + 1
      invariant forall j :: 1 <= j < i && j < |c.blocks| ==> LinkOk(H, c, j)
    {
      var curr := c.blocks[i];
      var prev := c.blocks[i - 1];
      if curr.hash != CreateHash(H, curr) {
        assert !LinkOk(H, c, i);
        return false;
      }
      if curr.previousHash != prev.hash {
        assert !LinkOk(H, c, i);
        return false;
      }
      i := i + 1;
    }
    return true;
  }

  /** Replacing block `i >= 1` by one with the same stored hash but a
      different preimage is detected, provided `H` does not collide on the
      two preimages. */
  lemma PreimageTamperDetected(H: Hasher, c: Chain, i: nat, b: Block)
    requires Valid(H, c) && 1 <= i < |c.blocks|
    requires b.hash == c.blocks[i].hash && Preimage(b) != Preimage(c.blocks[i])
    requires CollisionFreeOn(H, Preimage(b), Preimage(c.blocks[i]))
    ensures !Valid(H, c.(blocks := c.blocks[i := b]))
  {
    assert LinkOk(H, c, i);
    var c' := c.(blocks := c.blocks[i := b]);
    assert !LinkOk(H, c', i);
  }

  /** Overwriting the payload of block `i >= 1` is detected, provided `H`
      does not collide on the old and new preimages. */
  lemma DataTamperDetected(H: Hasher, c: Chain, i: nat, data: Json)
    requires Valid(H, c) && 1 <= i < |c.blocks|
    requires data != c.blocks[i].data
    requires CollisionFreeOn(H, Preimage(c.blocks[i].(data := data)), Preimage(c.blocks[i]))
    ensures !Valid(H, c.(blocks := c.blocks[i := c.blocks[i].(data := data)]))
  {
    var b := c.blocks[i];
    var front := NatToString(b.index + b.timestamp);
    var back := b.previousHash + b.validator;
    InfixDiffers(front, data, b.data, back);
    assert Preimage(b.(data := data)) == front + data + back;
    assert Preimage(b) == front + b.data + back;
    PreimageTamperDetected(H, c, i, b.(data := data));
  }

  /** Overwriting only the index of block `i >= 1` is detected, provided `H`
      does not collide on the old and new preimages: the sum changes, and so
      does its decimal text. */
  lemma IndexTamperDetected(H: Hasher, c: Chain, i: nat, index: nat)
    requires Valid(H, c) && 1 <= i < |c.blocks|
    requires index != c.blocks[i].index
    requires CollisionFreeOn(H, Preimage(c.blocks[i].(index := index)), Preimage(c.blocks[i]))
    ensures !Valid(H, c.(blocks := c.blocks[i := c.blocks[i].(index := index)]))
  {
    var b := c.blocks[i];
    NatToStringInjective(index + b.timestamp, b.index + b.timestamp);
    PrefixDiffers(NatToString(index + b.timestamp), NatToString(b.index + b.timestamp), b.data + b.previousHash + b.validator);
    assert Preimage(b.(index := index)) == NatToString(index + b.timestamp) + (b.data + b.previousHash + b.validator);
    assert Preimage(b) == NatToString(b.index + b.timestamp) + (b.data + b.previousHash + b.validator);
    PreimageTamperDetected(H, c, i, b.(index := index));
  }

  /** Because index and timestamp are added before hashing, moving `k` from
      the timestamp to the index of a block leaves its preimage, and with it
      the verdict of the validity pass, unchanged, whatever `H` is. */
  lemma IndexTimestampShiftUndetected(H: Hasher, c: Chain, i: nat, k: nat)
    requires Valid(H, c) && 1 <= i < |c.blocks| && k <= c.blocks[i].timestamp
    ensures var b := c.blocks[i];
      Valid(H, c.(blocks := c.blocks[i := b.(index := b.index + k, timestamp := b.timestamp - k)]))
  {
    var b := c.blocks[i];
    var b' := b.(index := b.index + k, timestamp := b.timestamp - k);
    assert Preimage(b') == Preimage(b);
    var c' := c.(blocks := c.blocks[i := b']);
    forall j | 1 <= j < |c'.blocks|
      ensures LinkOk(H, c', j)
    {
      assert LinkOk(H, c, j);
    }
  }
}

=== FILE: pow_chain.dfy ===
/** The proof-of-work ledger whose blocks carry a `type`: appended "standard"
    blocks are mined for `difficulty` leading zeros, appended "alternative"
    blocks for a `'3'` at index 2. The genesis block is standard but never
    mined, and the validity pass, which starts at index 1, re-checks the
    difficulty of the standard blocks after it. */
module PowChain {
  import opened Results
  import opened Ledger
  import opened Decimal
  import opened Strings
  import opened Hashing
  import opened Mining

  /** The block `type`: which miner sealed it. */
  datatype Kind = Standard | Alternative

  /** A block. `timestamp` is the string `Date.now().toString()`, `data`
      the payload's JSON text. */
  datatype Block = Block(
    index: nat,
    timestamp: string,
    data: Json,
    previousHash: string,
    nonce: nat,
    kind: Kind,
    hash: string)

  /** The hashed string: `index + timestamp + JSON.stringify(data) +
      previousHash + nonce`, where the number `index` meets the string
      `timestamp` first, so every part is concatenated as text. The kind is
      not part of it. */
  function Preimage(b: Block): string {
    NatToString(b.index) + b.timestamp + b.data + b.previousHash + NatToString(b.nonce)
  }

  /** `calculateHash()`. */
  function CalculateHash(H: Hasher, b: Block): HexDigest {
    H(Preimage(b))
  }

  /** The hashed string holds, in this order, the decimal text of the index,
      the timestamp, the payload text, the previous hash and the decimal text
      of the nonce, each readable back from its position. The kind and the
      stored hash are not part of it. */
  lemma PreimageLayout(H: Hasher, b: Block, kind: Kind, hash: string)
    ensures var p := Preimage(b);
      var i := |NatToString(b.index)|;
      var t := i + |b.timestamp|;
      var d := t + |b.data|;
      var h := d + |b.previousHash|;
      && |p| == h + |NatToString(b.nonce)|
      && p[..i] == NatToString(b.index) && ParseDecimal(p[..i]) == b.index
      && p[i..t] == b.timestamp
      && p[t..d] == b.data
      && p[d..h] == b.previousHash
      && p[h..] == NatToString(b.nonce) && ParseDecimal(p[h..]) == b.nonce
    ensures CalculateHash(H, b.(kind := kind, hash := hash)) == CalculateHash(H, b)
  {
    var p := Preimage(b);
    var a, n := NatToString(b.index), NatToString(b.nonce);
    var i := |a|;
    var t := i + |b.timestamp|;
    var d := t + |b.data|;
    var h := d + |b.previousHash|;
    assert p == a + b.timestamp + b.data + b.previousHash + n;
    assert p[..i] == a;
    assert p[i..t] == b.timestamp;
    assert p[t..d] == b.data;
    assert p[d..h] == b.previousHash;
    assert p[h..] == n;
    ParseNatToString(b.index);
    ParseNatToString(b.nonce);
    assert Preimage(b.(kind := kind, hash := hash)) == p;
  }

  /** The stored hash is the hash of the stored fields. */
  predicate Sealed(H: Hasher, b: Block) {
    b.hash == CalculateHash(H, b)
  }

  /** The block constructor: nonce 0 and the hash of the given fields. The
      previous hash defaults to `""` and the kind to standard. */
  function NewBlock(H: Hasher, index: nat, timestamp: string, data: Json, previousHash: string := "", kind: Kind := Standard): (b: Block)
    ensures Sealed(H, b) && b.nonce == 0
    ensures b.index == index && b.timestamp == timestamp && b.data == data
    ensures b.previousHash == previousHash && b.kind == kind
  {
    var unsealed := Block(index, timestamp, data, previousHash, 0, kind, "");
    unsealed.(hash := CalculateHash(H, unsealed))
  }

  /** The hash the block would have with nonce `n`. */
  function HashWithNonce(H: Hasher, b: Block, n: nat): HexDigest {
    CalculateHash(H, b.(nonce := n))
  }

  /** Mining changes the nonce and the hash and nothing else. */
  predicate SameContent(a: Block, b: Block) {
    a == b.(nonce := a.nonce, hash := a.hash)
  }

  /** The search loop both miners share, on a block. */
  method Mine(H: Hasher, b: Block, t: Target, fuel: nat) returns (r: Result<Block, MiningError>)
    ensures r.Ok? ==> Accepts(t, r.value.hash) && SameContent(r.value, b)
    ensures r.Ok? ==> b.nonce <= r.value.nonce <= b.nonce + fuel
    ensures r.Ok? && r.value.nonce == b.nonce ==> r.value == b
    ensures r.Ok? && r.value.nonce != b.nonce ==> Sealed(H, r.value)
    ensures r.Ok? ==>
              forall m :: b.nonce < m < r.value.nonce ==> !Accepts(t, HashWithNonce(H, b, m))
    ensures r.Ok? && Sealed(H, b) ==>
              forall m :: b.nonce <= m < r.value.nonce ==> !Accepts(t, HashWithNonce(H, b, m))
    ensures Accepts(t, b.hash) ==> r == Ok(b)
    ensures r.Err? ==> !Accepts(t, b.hash)
    ensures r.Err? ==> forall m :: b.nonce < m <= b.nonce + fuel ==> !Accepts(t, HashWithNonce(H, b, m))
  {
    var hashAt: nat -> string := (n: nat) => HashWithNonce(H, b, n);
    var found := Search(hashAt, t, Seal(b.nonce, b.hash), fuel);
    match found
    case Err(e) =>
      r := Err(e);
      forall m | b.nonce < m <= b.nonce + fuel
        ensures !Accepts(t, HashWithNonce(H, b, m))
      {
        assert hashAt(m) == HashWithNonce(H, b, m);
      }
    case Ok(s) =>
      r := Ok(b.(nonce := s.nonce, hash := s.hash));
      forall m | b.nonce < m < s.nonce
        ensures !Accepts(t, HashWithNonce(H, b, m))
      {
        assert hashAt(m) == HashWithNonce(H, b, m);
      }
      assert b.(nonce := b.nonce) == b;
  }

  /** `mineBlock(difficulty)`: a block whose stored hash already has
      `difficulty` leading zeros (always so for difficulty 0) comes back
      unchanged. Otherwise each increment re-hashes the block, so on success
      the hash is the hash of the block's fields at the first later nonce
      with the zeros, whatever hash the block stored before. */
  method MineBlock(H: Hasher, b: Block, difficulty: nat, fuel: nat) returns (r: Result<Block, MiningError>)
    ensures r.Ok? ==> HasLeadingZeros(r.value.hash, difficulty) && SameContent(r.value, b)
    ensures r.Ok? ==> b.nonce <= r.value.nonce <= b.nonce + fuel
    ensures HasLeadingZeros(b.hash, difficulty) ==> r == Ok(b)
    ensures r.Ok? && (Sealed(H, b) || r.value.nonce != b.nonce) ==> Sealed(H, r.value)
    ensures r.Ok? ==>
              forall m :: b.nonce < m < r.value.nonce ==> !HasLeadingZeros(HashWithNonce(H, b, m), difficulty)
    ensures r.Ok? && Sealed(H, b) ==>
              forall m :: b.nonce <= m < r.value.nonce ==> !HasLeadingZeros(HashWithNonce(H, b, m), difficulty)
    ensures difficulty == 0 ==> r == Ok(b)
    ensures r.Err? ==> forall m :: b.nonce < m <= b.nonce + fuel ==> !HasLeadingZeros(HashWithNonce(H, b, m), difficulty)
  {
    r := Mine(H, b, LeadingZeros(difficulty), fuel);
    LeadingZerosTarget(difficulty, b.hash);
    if r.Ok? {
      LeadingZerosTarget(difficulty, r.value.hash);
    }
    forall m: nat
      ensures Accepts(LeadingZeros(difficulty), HashWithNonce(H, b, m)) <==> HasLeadingZeros(HashWithNonce(H, b, m), difficulty)
    {
      LeadingZerosTarget(difficulty, HashWithNonce(H, b, m));
    }
  }

  /** `mineBlockAlternative()`: a block whose stored hash already has `'3'`
      at index 2 comes back unchanged. Otherwise each increment re-hashes the
      block, so on success the hash is the hash of the block's fields at the
      first later nonce with the `'3'`, whatever hash the block stored
      before. The chain's difficulty plays no part. */
  method MineBlockAlternative(H: Hasher, b: Block, fuel: nat) returns (r: Result<Block, MiningError>)
    ensures r.Ok? ==> 2 < |r.value.hash| && r.value.hash[2] == '3' && SameContent(r.value, b)
    ensures r.Ok? ==> b.nonce <= r.value.nonce <= b.nonce + fuel
    ensures 2 < |b.hash| && b.hash[2] == '3' ==> r == Ok(b)
    ensures r.Ok? && (Sealed(H, b) || r.value.nonce != b.nonce) ==> Sealed(H, r.value)
    ensures r.Ok? ==>
              forall m :: b.nonce < m < r.value.nonce ==> HashWithNonce(H, b, m)[2] != '3'
    ensures r.Ok? && Sealed(H, b) ==>
              forall m :: b.nonce <= m < r.value.nonce ==> HashWithNonce(H, b, m)[2] != '3'
    ensures r.Err? ==> forall m :: b.nonce < m <= b.nonce + fuel ==> HashWithNonce(H, b, m)[2] != '3'
  {
    r := Mine(H, b, CharAt2Is3, fuel);
  }

  /** The ledger: its blocks, genesis first, and the mining difficulty. */
  datatype Chain = Chain(blocks: seq<Block>, difficulty: nat)

  /** The genesis payload, `JSON.stringify("Genesis Block")`. */
  const GenesisData: Json := "\"Genesis Block\""

  /** The checks `isChainValid` makes of block `i` and its predecessor. */
  predicate LinkOk(H: Hasher, c: Chain, i: nat)
    requires 1 <= i < |c.blocks|
  {
    var current := c.blocks[i];
    var previous := c.blocks[i - 1];
    && current.hash == CalculateHash(H, current)
    && current.previousHash == previous.hash
    && (current.kind == Standard ==> StartsWith(current.hash, Zeros(c.difficulty)))
  }

  /** Every block after genesis passes the checks; genesis itself is never
      inspected. */
  predicate Valid(H: Hasher, c: Chain) {
    forall i :: 1 <= i < |c.blocks| ==> LinkOk(H, c, i)
  }

  /** Block `i` sits at index `i`. */
  predicate IndexedByPosition(c: Chain) {
    forall i :: 0 <= i < |c.blocks| ==> c.blocks[i].index == i
  }

  /** The constructor: a single sealed genesis block (index 0, previous hash
      `"0"`, nonce 0, never mined), which makes a valid chain. The difficulty
      defaults to 3. */
  function NewChain(H: Hasher, now: nat, difficulty: nat := 3): (c: Chain)
    ensures |c.blocks| == 1 && c.difficulty == difficulty
    ensures c.blocks[0].index == 0 && c.blocks[0].previousHash == "0"
    ensures c.blocks[0].nonce == 0 && c.blocks[0].kind == Standard && Sealed(H, c.blocks[0])
    ensures Valid(H, c) && IndexedByPosition(c)
  {
    Chain([NewBlock(H, 0, NatToString(now), GenesisData, "0", Standard)], difficulty)
  }

  /** The kind `addBlock` gives a block for its flag. */
  function KindFor(useAlternative: bool): Kind {
    if useAlternative then Alternative else Standard
  }

  /** The test the miner for `kind` stops on. */
  predicate MeetsTarget(kind: Kind, difficulty: nat, hash: string) {
    if kind == Alternative then 2 < |hash| && hash[2] == '3' else HasLeadingZeros(hash, difficulty)
  }

  /** The block `addBlock` builds before mining it: index `|chain|`, the
      timestamp as text, linked to the latest block, nonce 0. */
  function Candidate(H: Hasher, c: Chain, now: nat, data: Json, kind: Kind): Block
    requires 0 < |c.blocks|
  {
    NewBlock(H, |c.blocks|, NatToString(now), data, c.blocks[|c.blocks| - 1].hash, kind)
  }

  /** Why `addBlock` failed: the chain had no latest block (the source throws
      a TypeError), or the search budget ran out. */
  datatype ChainError = EmptyChain | MiningFailed

  /** Pushing a sealed, linked block that meets the difficulty when it is
      standard keeps a valid chain valid. */
  lemma PushPreservesValid(H: Hasher, c: Chain, b: Block)
    requires Valid(H, c) && 0 < |c.blocks|
    requires Sealed(H, b) && b.previousHash == c.blocks[|c.blocks| - 1].hash
    requires b.kind == Standard ==> HasLeadingZeros(b.hash, c.difficulty)
    ensures Valid(H, c.(blocks := c.blocks + [b]))
  {
    var c' := c.(blocks := c.blocks + [b]);
    StartsWithTestIsLeadingZeros(b.hash, c.difficulty);
    forall i | 1 <= i < |c'.blocks|
      ensures LinkOk(H, c', i)
    {
      if i < |c.blocks| {
        assert LinkOk(H, c, i);
      }
    }
  }

  /** `addBlock(data, useAlternative)`: builds a block at index `|chain|`
      linked to the latest block, mines it with the miner the flag selects
      (standard by default), and pushes it. The pushed block is the
      candidate at its first nonce that meets the target; mining fails only
      when no nonce up to `fuel` does. Earlier blocks are untouched and
      validity is kept. */
  method AddBlock(H: Hasher, c: Chain, now: nat, data: Json, fuel: nat, useAlternative: bool := false)
    returns (r: Result<Chain, ChainError>)
    ensures r == Err(EmptyChain) <==> |c.blocks| == 0
    ensures r.Ok? ==> |r.value.blocks| == |c.blocks| + 1 && r.value.difficulty == c.difficulty
    ensures r.Ok? ==> r.value.blocks[..|c.blocks|] == c.blocks
    ensures r.Ok? ==> var b := r.value.blocks[|c.blocks|];
              && b.index == |c.blocks|
              && b.timestamp == NatToString(now)
              && b.data == data
              && b.previousHash == c.blocks[|c.blocks| - 1].hash
              && b.kind == KindFor(useAlternative)
              && Sealed(H, b)
              && (useAlternative ==> b.hash[2] == '3')
              && (!useAlternative ==> HasLeadingZeros(b.hash, c.difficulty))
    ensures r.Ok? ==>
              var kind := KindFor(useAlternative);
              var candidate := Candidate(H, c, now, data, kind);
              var b := r.value.blocks[|c.blocks|];
              && SameContent(b, candidate)
              && b.nonce <= fuel
              && MeetsTarget(kind, c.difficulty, b.hash)
              && forall m :: 0 <= m < b.nonce ==> !MeetsTarget(kind, c.difficulty, HashWithNonce(H, candidate, m))
    ensures r == Err(MiningFailed) ==>
              && 0 < |c.blocks|
              && var kind := KindFor(useAlternative);
                 var candidate := Candidate(H, c, now, data, kind);
                 forall m :: 0 <= m <= fuel ==> !MeetsTarget(kind, c.difficulty, HashWithNonce(H, candidate, m))
    ensures 0 < |c.blocks| && !useAlternative && c.difficulty == 0 ==>
              r.Ok? && r.value.blocks[|c.blocks|].nonce == 0
    ensures r.Ok? && Valid(H, c) ==> Valid(H, r.value)
    ensures r.Ok? && IndexedByPosition(c) ==> IndexedByPosition(r.value)
  {
    var kind := KindFor(useAlternative);
    var latest := Latest(c.blocks);
    if latest.None? {
      return Err(EmptyChain);
    }
    var candidate := NewBlock(H, |c.blocks|, NatToString(now), data, latest.value.hash, kind);
    assert candidate == Candidate(H, c, now, data, kind);
    assert HashWithNonce(H, candidate, 0) == candidate.hash by {
      assert candidate.(nonce := 0) == candidate;
    }
    var mined;
    if useAlternative {
      mined := MineBlockAlternative(H, candidate, fuel);
    } else {
      mined := MineBlock(H, candidate, c.difficulty, fuel);
    }
    if mined.Err? {
      return Err(MiningFailed);
    }
    var b := mined.value;
    r := Ok(c.(blocks := c.blocks + [b]));
    assert r.value.blocks[..|c.blocks|] == c.blocks;
    if Valid(H, c) {
      PushPreservesValid(H, c, b);
    }
  }

  /** `isChainValid()`: walks the chain from index 1 and answers false at the
      first block whose hash does not recompute, whose link does not match,
      or which is standard and lacks the difficulty's leading zeros. */
  method IsChainValid(H: Hasher, c: Chain) returns (ok: bool)
    ensures ok <==> Valid(H, c)
  {
    var i := 1;
    while i < |c.blocks|
      invariant 1 <= i <= |c.blocks| + 1
      invariant forall j :: 1 <= j < i && j < |c.blocks| ==> LinkOk(H, c, j)
    {
      var current := c.blocks[i];
      var previous := c.blocks[i - 1];
      if current.hash != CalculateHash(H, current) {
        assert !LinkOk(H, c, i);
        return false;
      }
      if current.previousHash != previous.hash {
        assert !LinkOk(H, c, i);
        return false;
      }
      if current.kind == Standard && !StartsWith(current.hash, Zeros(c.difficulty)) {
        assert !LinkOk(H, c, i);
        return false;
      }
      i := i + 1;
    }
    return true;
  }

  /** Replacing block `i >= 1` by one with the same stored hash but a
      different preimage is detected, provided `H` does not collide on the
      two preimages. */
  lemma PreimageTamperDetected(H: Hasher, c: Chain, i: nat, b: Block)
    requires Valid(H, c) && 1 <= i < |c.blocks|
    requires b.hash == c.blocks[i].hash && Preimage(b) != Preimage(c.blocks[i])
    requires CollisionFreeOn(H, Preimage(b), Preimage(c.blocks[i]))
    ensures !Valid(H, c.(blocks := c.blocks[i := b]))
  {
    assert LinkOk(H, c, i);
    var c' := c.(blocks := c.blocks[i := b]);
    assert !LinkOk(H, c', i);
  }

  /** Overwriting the payload of block `i >= 1` (as `chain[1].data =
      "Hacked!"` does) makes a valid chain invalid, provided `H` does not
      collide on the old and new preimages. */
  lemma DataTamperDetected(H: Hasher, c: Chain, i: nat, data: Json)
    requires Valid(H, c) && 1 <= i < |c.blocks|
    requires data != c.blocks[i].data
    requires CollisionFreeOn(H, Preimage(c.blocks[i].(data := data)), Preimage(c.blocks[i]))
    ensures !Valid(H, c.(blocks := c.blocks[i := c.blocks[i].(data := data)]))
  {
    var b := c.blocks[i];
    var front := NatToString(b.index) + b.timestamp;
    var back := b.previousHash + NatToString(b.nonce);
    InfixDiffers(front, data, b.data, back);
    assert Preimage(b.(data := data)) == front + data + back;
    assert Preimage(b) == front + b.data + back;
    PreimageTamperDetected(H, c, i, b.(data := data));
  }

  /** Overwriting the nonce of block `i >= 1` is detected too, since distinct
      nonces render as distinct decimal strings. */
  lemma NonceTamperDetected(H: Hasher, c: Chain, i: nat, nonce: nat)
    requires Valid(H, c) && 1 <= i < |c.blocks|
    requires nonce != c.blocks[i].nonce
    requires CollisionFreeOn(H, Preimage(c.blocks[i].(nonce := nonce)), Preimage(c.blocks[i]))
    ensures !Valid(H, c.(blocks := c.blocks[i := c.blocks[i].(nonce := nonce)]))
  {
    var b := c.blocks[i];
    NatToStringInjective(nonce, b.nonce);
    SuffixDiffers(NatToString(b.index) + b.timestamp + b.data + b.previousHash, NatToString(nonce), NatToString(b.nonce));
    PreimageTamperDetected(H, c, i, b.(nonce := nonce));
  }

  /** The kind is not hashed, so relabelling a block as "alternative" is not
      detected: it only drops the difficulty check. */
  lemma RelabelAlternativeUndetected(H: Hasher, c: Chain, i: nat)
    requires Valid(H, c) && i < |c.blocks|
    ensures Valid(H, c.(blocks := c.blocks[i := c.blocks[i].(kind := Alternative)]))
  {
    var c' := c.(blocks := c.blocks[i := c.blocks[i].(kind := Alternative)]);
    assert CalculateHash(H, c'.blocks[i]) == CalculateHash(H, c.blocks[i]);
    forall j | 1 <= j < |c'.blocks|
      ensures LinkOk(H, c', j)
    {
      assert LinkOk(H, c, j);
    }
  }

  /** Validity never looks at genesis beyond its stored hash: any genesis
      with the same hash gives the same verdict. */
  lemma GenesisNotInspected(H: Hasher, c: Chain, g: Block)
    requires 0 < |c.blocks| && g.hash == c.blocks[0].hash
    ensures Valid(H, c.(blocks := c.blocks[0 := g])) <==> Valid(H, c)
  {
    var c' := c.(blocks := c.blocks[0 := g]);
    forall j | 1 <= j < |c.blocks|
      ensures LinkOk(H, c', j) <==> LinkOk(H, c, j)
    {
    }
  }
}

=== FILE: results.dfy ===
/** Failure-carrying return values for the ledger model: the source signals
    a missing value with `undefined` and a failed operation with a thrown
    TypeError; the model returns these instead. */
module Results {

  /** A value that may be absent (`undefined` in the source). */
  datatype Option<+T> = None | Some(value: T)

  /** The outcome of an operation that can fail with an error of type `E`. */
  datatype Result<+T, +E> = Ok(value: T) | Err(error: E)
}

=== FILE: stake.dfy ===
/** Stake-weighted validator selection: a draw `u` from [0, 1) scaled by the
    total stake picks the first validator whose cumulative stake covers it. */
module Stake {
  import opened Results

  /** A validator and the coins it has staked. */
  datatype Validator = Validator(name: string, stake: real)

  /** stake_0 + ... + stake_(n-1), summed left to right as `reduce` does. */
  function StakeBefore(vs: seq<Validator>, n: nat): real
    requires n <= |vs|
  {
    if n == 0 then 0.0 else StakeBefore(vs, n - 1) + vs[n - 1].stake
  }

  /** The sum of all stakes. */
  function Total(vs: seq<Validator>): real {
    StakeBefore(vs, |vs|)
  }

  /** The cumulative stake up to and including validator `k` reaches the
      draw. */
  predicate Covers(vs: seq<Validator>, draw: real, k: nat)
    requires k < |vs|
  {
    draw <= StakeBefore(vs, k + 1)
  }

  /** `k` is the first validator whose cumulative stake reaches the draw. */
  predicate IsFirstCover(vs: seq<Validator>, draw: real, k: nat) {
    k < |vs| && Covers(vs, draw, k) && forall j :: 0 <= j < k ==> !Covers(vs, draw, j)
  }

  /** No cumulative stake reaches the draw. */
  predicate NoCover(vs: seq<Validator>, draw: real) {
    forall j :: 0 <= j < |vs| ==> !Covers(vs, draw, j)
  }

  predicate NonNegativeStakes(vs: seq<Validator>) {
    forall i :: 0 <= i < |vs| ==> 0.0 <= vs[i].stake
  }

  /** Cumulative stake never decreases along the list when no stake is
      negative. */
  lemma {:induction false} StakeBeforeMonotone(vs: seq<Validator>, a: nat, b: nat)
    requires NonNegativeStakes(vs) && a <= b <= |vs|
    ensures StakeBefore(vs, a) <= StakeBefore(vs, b)
    decreases b
  {
    if a < b {
      StakeBeforeMonotone(vs, a, b - 1);
    }
  }

  /** Under exact arithmetic, with no negative stake and a draw `u` in
      [0, 1), the last validator's cumulative stake (the total) covers
      `u * total`, so the fallback after the loop is never taken. */
  lemma FallbackUnreachable(vs: seq<Validator>, u: real)
    requires NonNegativeStakes(vs) && 0 < |vs| && 0.0 <= u < 1.0
    ensures Covers(vs, u * Total(vs), |vs| - 1)
    ensures !NoCover(vs, u * Total(vs))
  {
    StakeBeforeMonotone(vs, 0, |vs|);
    var total := Total(vs);
    DrawWithinTotal(u, total);
    assert StakeBefore(vs, (|vs| - 1) + 1) == total;
    assert u * total <= StakeBefore(vs, (|vs| - 1) + 1);
    assert Covers(vs, u * Total(vs), |vs| - 1);
  }

  /** Scaling a non-negative total by a draw in [0, 1) lands in
      [0, total]. */
  lemma DrawWithinTotal(u: real, total: real)
    requires 0.0 <= u < 1.0 && 0.0 <= total
    ensures 0.0 <= u * total <= total
  {
    assert total - u * total == (1.0 - u) * total;
  }

  /** `pickValidator(validators)` with `Math.random()` replaced by `u`: the
      position of the validator returned. Subtracting each stake from
      `u * total` in turn and stopping once the residue is at most 0 picks
      the first validator whose cumulative stake covers `u * total`; when
      none does, the last one; an empty list gives `undefined`. */
  method PickValidator(vs: seq<Validator>, u: real) returns (pick: Option<nat>)
    ensures pick.None? <==> |vs| == 0
    ensures pick.Some? ==> pick.value < |vs|
    ensures pick.Some? ==>
              IsFirstCover(vs, u * Total(vs), pick.value)
              || (pick.value == |vs| - 1 && NoCover(vs, u * Total(vs)))
    ensures pick.Some? && NonNegativeStakes(vs) && 0.0 <= u < 1.0 ==>
              IsFirstCover(vs, u * Total(vs), pick.value)
  {
    var total := 0.0;
    var i := 0;
    while i < |vs|
      invariant i <= |vs| && total == StakeBefore(vs, i)
    {
      total := total + vs[i].stake;
      i := i + 1;
    }
    var draw := u * total;
    assert draw == u * Total(vs);
    var rand := draw;
    i := 0;
    while i < |vs|
      invariant i <= |vs|
      invariant rand == draw - StakeBefore(vs, i)
      invariant forall j :: 0 <= j < i ==> !Covers(vs, draw, j)
    {
      rand := rand - vs[i].stake;
      if rand <= 0.0 {
        return Some(i);
      }
      i := i + 1;
    }
    if |vs| == 0 {
      return None;
    }
    assert NoCover(vs, draw);
    if NonNegativeStakes(vs) && 0.0 <= u < 1.0 {
      FallbackUnreachable(vs, u);
    }
    return Some(|vs| - 1);
  }

  /** The draws that select validator `k` form the interval
      (S_(k-1), S_k] (for k = 0, everything up to S_0), where S_k is the
      cumulative stake through `k`; its width is `k`'s stake. */
  lemma SelectionInterval(vs: seq<Validator>, draw: real, k: nat)
    requires NonNegativeStakes(vs) && k < |vs|
    ensures IsFirstCover(vs, draw, k) <==>
              (k == 0 || StakeBefore(vs, k) < draw) && draw <= StakeBefore(vs, k + 1)
    ensures StakeBefore(vs, k + 1) - StakeBefore(vs, k) == vs[k].stake
  {
    if 0 < k {
      if IsFirstCover(vs, draw, k) {
        assert !Covers(vs, draw, k - 1);
      } else if StakeBefore(vs, k) < draw && draw <= StakeBefore(vs, k + 1) {
        forall j | 0 <= j < k
          ensures !Covers(vs, draw, j)
        {
          StakeBeforeMonotone(vs, j + 1, k);
        }
      }
    }
  }

  /** When every stake is 0, every cumulative stake is 0. */
  lemma {:induction false} ZeroStakesSumToZero(vs: seq<Validator>, n: nat)
    requires forall i :: 0 <= i < |vs| ==> vs[i].stake == 0.0
    requires n <= |vs|
    ensures StakeBefore(vs, n) == 0.0
  {
    if 0 < n {
      ZeroStakesSumToZero(vs, n - 1);
    }
  }

  /** When every stake is 0 the draw is 0 and the first validator is the
      one selected. */
  lemma AllZeroStakesPickFirst(vs: seq<Validator>, u: real)
    requires 0 < |vs| && forall i :: 0 <= i < |vs| ==> vs[i].stake == 0.0
    ensures u * Total(vs) == 0.0
    ensures forall k :: IsFirstCover(vs, 0.0, k) <==> k == 0
    ensures !NoCover(vs, 0.0)
  {
    ZeroStakesSumToZero(vs, |vs|);
    ZeroStakesSumToZero(vs, 1);
    assert Covers(vs, 0.0, 0);
  }

  /** A validator after the first with no stake is never selected. */
  lemma ZeroStakeNeverPicked(vs: seq<Validator>, draw: real, k: nat)
    requires NonNegativeStakes(vs) && 1 <= k < |vs| && vs[k].stake == 0.0
    ensures !IsFirstCover(vs, draw, k)
  {
    SelectionInterval(vs, draw, k);
  }

  /** The selection intervals of the stakes Alice 5, Bob 10, Charlie 1:
      [0, 5], (5, 15] and (15, 16] of a total of 16. */
  lemma ExampleIntervals(draw: real)
    ensures var vs := [Validator("Alice", 5.0), Validator("Bob", 10.0), Validator("Charlie", 1.0)];
      && Total(vs) == 16.0
      && (IsFirstCover(vs, draw, 0) <==> draw <= 5.0)
      && (IsFirstCover(vs, draw, 1) <==> 5.0 < draw <= 15.0)
      && (IsFirstCover(vs, draw, 2) <==> 15.0 < draw <= 16.0)
  {
    var vs := [Validator("Alice", 5.0), Validator("Bob", 10.0), Validator("Charlie", 1.0)];
    SelectionInterval(vs, draw, 0);
    SelectionInterval(vs, draw, 1);
    SelectionInterval(vs, draw, 2);
  }
}

=== FILE: strings.dfy ===
/** The JavaScript string operations the miners and the validity checks use,
    and the facts about concatenation the tamper-detection proofs need. */
module Strings {

  /** `"0".repeat(n)`. */
  function Zeros(n: nat): (z: string)
    ensures |z| == n
    ensures forall i :: 0 <= i < n ==> z[i] == '0'
  {
    seq(n, _ => '0')
  }

  /** `s.substring(0, end)`: the end position is clamped to the length. */
  function Substring(s: string, end: nat): (t: string)
    ensures |t| <= |s| && t == s[..|t|]
  {
    if end <= |s| then s[..end] else s
  }

  /** `s.startsWith(p)`. */
  predicate StartsWith(s: string, p: string) {
    |p| <= |s| && s[..|p|] == p
  }

  /** The first `d` characters of `s` exist and are all `'0'`. */
  predicate HasLeadingZeros(s: string, d: nat) {
    d <= |s| && forall i :: 0 <= i < d ==> s[i] == '0'
  }

  /** The miner's loop test `s.substring(0, d) === "0".repeat(d)` holds
      exactly when `s` has `d` leading zeros. */
  lemma SubstringTestIsLeadingZeros(s: string, d: nat)
    ensures Substring(s, d) == Zeros(d) <==> HasLeadingZeros(s, d)
  {
    if HasLeadingZeros(s, d) {
      assert Substring(s, d) == s[..d];
      assert s[..d] == Zeros(d);
    }
  }

  /** The validity check's `s.startsWith("0".repeat(d))` holds exactly when
      `s` has `d` leading zeros. */
  lemma StartsWithTestIsLeadingZeros(s: string, d: nat)
    ensures StartsWith(s, Zeros(d)) <==> HasLeadingZeros(s, d)
  {
    if HasLeadingZeros(s, d) {
      assert s[..d] == Zeros(d);
    }
    if StartsWith(s, Zeros(d)) {
      forall i | 0 <= i < d
        ensures s[i] == '0'
      {
        assert s[..d][i] == s[i];
      }
    }
  }

  /** Replacing the middle part of a concatenation by a different string
      changes the whole. */
  lemma InfixDiffers(a: string, x: string, y: string, b: string)
    requires x != y
    ensures a + x + b != a + y + b
  {
    if |x| == |y| {
      assert (a + x + b)[|a|..|a| + |x|] == x;
      assert (a + y + b)[|a|..|a| + |y|] == y;
    } else {
      assert |a + x + b| != |a + y + b|;
    }
  }

  /** Replacing the front part of a concatenation by a different string
      changes the whole. */
  lemma PrefixDiffers(x: string, y: string, b: string)
    requires x != y
    ensures x + b != y + b
  {
    InfixDiffers([], x, y, b);
    assert [] + x == x && [] + y == y;
  }

  /** Replacing the back part of a concatenation by a different string
      changes the whole. */
  lemma SuffixDiffers(a: string, x: string, y: string)
    requires x != y
    ensures a + x != a + y
  {
    InfixDiffers(a, x, y, []);
    assert a + x + [] == a + x && a + y + [] == a + y;
  }
}
